=== FILE: README.md ===
# OS/161 kernel core: path strings, semaphores and locks, the system file table, program start

A Dafny model of four pieces of sequential logic in an OS/161 teaching
kernel, with their properties proved:

- `kern/lib/misc.c`: `strerror` (a bounds-checked lookup in the error
  message table), `kstrdup` (a C-string copy) and
  `remove_device_from_path`, which strips a device prefix such as `emu0:`
  from a path held in a character buffer and completes it with `/` and a
  NUL. The routine is modelled twice: as a pure function over the buffer
  (`Misc.StripDevice`) and as a method that runs the same two loops in
  the same order (`Misc.RemoveDeviceFromPath`). The method is proved to
  compute the function.
- `kern/thread/synch.c`: semaphores (`sem_create`, `P`, `V`) and locks
  (`lock_create`, `lock_init`, `lock_acquire`, `lock_tryacquire`,
  `lock_release`, `lock_do_i_hold`). Each operation runs as one atomic
  step under the primitive's spinlock, so each is a function from state
  to state. A thread that would sleep on the wait channel gets the
  `Blocked` outcome. Thread identities are opaque values.
- `kern/fs/filetable.c`: the system file table. It is a doubly linked
  list of nodes, each holding one `struct fs_file` by value. A cursor
  (`sys_filetable`) points at the newest node. The node heap is a
  sequence, so a node's address is its index, and allocating a node
  appends one.
- `kern/syscall/runprogram.c`: `runprogram`. It pads the program-name
  length, lays out the name and a two-slot `argv` below the user stack
  top, bumps the reference counts of descriptors 0–2, and closes the
  executable's vnode. The VFS, address-space and ELF-loader calls are
  not modelled. Their outcomes are the parameter `RunProgram.Env`, and
  the routine's effect is recorded as the list of calls it makes.

Where the code disagrees with its own comments or with the intended
design, the model follows the code:
- The comment above `remove_device_from_path` promises return values −1,
  0 or n. The code returns only 1 or 0.
- A lock release is meant to clear the owner. The code never clears
  `lk_owner`, so `lock_do_i_hold` stays true for the last owner. A
  release by a non-owner is ignored silently.
- The comment in `kern/include/fs.h` says new files are appended to the
  list. `filetable.c` only ever fills one node (see Findings). Its
  signature also differs from the one `fs.h` declares.

Unsigned C quantities are 32-bit and wrap explicitly: `sem_count`,
`f_refcount` and user addresses use `Types.Inc32`, `Types.Sub32` and
`Types.Add32`. `ENOMEM` is 3, as in OS/161's `kern/errno.h`; that header
is not part of this model.

## Model

| member | source | states |
|---|---|---|
| `Misc.StrError` | kern/lib/misc.c:54-62 | returns `sys_errlist[errcode]` exactly when `0 <= errcode < sys_nerr`; any other code is a panic, with no result |
| `Misc.KStrdup` | kern/lib/misc.c:37-48 | NULL exactly when the allocation fails; otherwise a buffer of `strlen(s)+1` bytes that holds the same C string as `s`, terminator included |
| `Misc.ScanColon` | kern/lib/misc.c:73-75 | the scan stops at the first `:` below `size`, or at `size`; no byte it passes is `:` |
| `Misc.FirstColon` | kern/lib/misc.c:73-78 | the scan stops below `size` if and only if some byte below `size` is `:`, and then at the least such index |
| `Misc.Shift` | kern/lib/misc.c:79-81 | after the copy loop, bytes `0..size-i-1` hold the old bytes `i+1..size`, and every byte from `size-i` on is unchanged |
| `Misc.ShiftDown` | kern/lib/misc.c:79-81 | the in-place copy loop, one byte at a time from the front, leaves exactly the buffer `Shift` describes: old bytes `i+1..size` at `0..size-i-1`, the rest untouched |
| `Misc.Terminate` | kern/lib/misc.c:87-92 | when byte n-1 is not `/`, writes `/` at n and NUL at n+1; otherwise writes only NUL at n; every other byte is unchanged |
| `Misc.DropPrefix` | kern/lib/misc.c:78-92 | the colon branch: bytes after the colon at c move to the front; the slash test reads the old byte at `size`; `/` and NUL, or NUL alone, follow the working length `size - c`; every byte past the NUL is unchanged |
| `Misc.StripDevice` | kern/lib/misc.c:68-93 | returns 1 iff a `:` occurs below `size`, else 0. With a colon at least index i, the working length is `size-i` and bytes `0..size-i-1` are the old bytes after the colon. Without one, bytes `0..size-1` are unchanged. The tested byte is old byte `size` (colon case) or `size-1` (no colon). If it is not `/`, `/` and NUL follow the working length; otherwise NUL alone. Nothing after the NUL changes |
| `Misc.RemoveDeviceFromPath` | kern/lib/misc.c:68-93 | the in-place scan and shift loops and the termination step leave exactly the buffer and return value of `StripDevice`; the return is 1 iff the first `size` bytes contain `:` |
| `Misc.StripDeviceKeepsPlainPath` | kern/lib/misc.c:84-92 | for a C string of length `size` with no colon, the resulting C string is the path with one `/` appended unless it already ends in `/` |
| `Misc.StripDeviceDropsSlash` | kern/lib/misc.c:78-92 | for a C string of length `size` with a colon, the resulting C string is exactly the characters after the first colon. The `/` is written after the NUL |
| `Misc.DevicePathLosesSlash` | kern/lib/misc.c:78-92 | on `emu0:/prova/paolo` (size 17) the result is the C string `/prova/paolo`, with no trailing slash |
| `Misc.PlainPathGainsSlash` | kern/lib/misc.c:84-92 | on `pippo` (size 5) the result is the C string `pippo/` |
| `Misc.StripDeviceFixed` | kern/lib/misc.c:68-93 | the corrected routine returns 1 iff a `:` occurs below `size`, and keeps the buffer length |
| `Misc.StripDeviceFixedPath` | kern/lib/misc.c:64-66 | with working length `size-i-1`, every C string comes back as its path after the device prefix, ending in `/`; a `/` is added only when the path does not already end in one |
| `Misc.DevicePathKeepsSlashFixed` | kern/lib/misc.c:64-66 | the corrected routine turns `emu0:/prova/paolo` into `/prova/paolo/` |
| `Synch.SemCreate` | kern/thread/synch.c:47-74 | NULL exactly when an allocation fails; otherwise the named semaphore with count `initial_count` |
| `Synch.P` | kern/thread/synch.c:88-121 | completes iff the count is positive, and then lowers it by exactly one; at 0 the caller sleeps |
| `Synch.V` | kern/thread/synch.c:123-135 | raises the count by exactly one; the positivity assertion panics exactly when the 32-bit count would wrap |
| `Synch.RunSemBalance` | kern/thread/synch.c:103-131 | over any completed sequence of P and V, final count = initial + #V − #P, so #P ≤ initial + #V |
| `Synch.RunSemPrefix` | kern/thread/synch.c:103-131 | a sequence that completes also completes on every prefix |
| `Synch.NoDownWithoutUp` | kern/thread/synch.c:103-119 | at every point of a completed run, the P operations so far are covered by the initial count plus the V operations so far |
| `Synch.LockCreate` | kern/thread/synch.c:141-176 | NULL exactly when an allocation fails; otherwise unheld with no owner |
| `Synch.LockInit` | kern/thread/synch.c:191-208 | marks the lock held by the given thread, whatever its prior state |
| `Synch.LockAcquire` | kern/thread/synch.c:210-231 | completes iff the lock is unheld, and then it is held and owned by the caller |
| `Synch.LockTryAcquire` | kern/thread/synch.c:233-258 | on an unheld lock, takes it for the caller and returns 0; on a held lock, returns 1 and changes nothing |
| `Synch.LockRelease` | kern/thread/synch.c:260-276 | clears the held flag iff the caller is the recorded owner; the owner is never changed |
| `Synch.LockDoIHold` | kern/thread/synch.c:278-291 | compares the recorded owner with the caller and never reads the held flag; its properties are stated by `Synch.DoIHoldIgnoresHeld` below |
| `Synch.DoIHoldIgnoresHeld` | kern/thread/synch.c:278-291 | `lock_do_i_hold` gives the same answer whether or not the lock is held; right after an init, an acquire or a successful tryacquire by t, it is true exactly for t; `ReleasesKeepOwner` and `HeldOwnerStays` carry that answer over the later operations that do not take the lock |
| `Synch.ReleasesKeepOwner` | kern/thread/synch.c:260-290 | over any run of releases, by any threads, the recorded owner, and so every thread's `lock_do_i_hold` answer, is unchanged |
| `Synch.HeldOwnerStays` | kern/thread/synch.c:210-290 | while t holds the lock, any run of acquires (which block), tryacquires (which fail) and releases by other threads leaves the lock held by t, so `lock_do_i_hold` stays true for t alone |
| `Synch.HeldLockExcludes` | kern/thread/synch.c:220-273 | while t holds the lock, acquire blocks for every thread (t too), tryacquire fails for others, and a release by anyone else changes nothing |
| `Synch.ReleaseThenAcquire` | kern/thread/synch.c:220-273 | after the owner's release, another thread's acquire completes and makes it the owner |
| `Synch.ReleasedOwnerStillHolds` | kern/thread/synch.c:269-290 | after t acquires and releases, the lock is free and `lock_do_i_hold` is still true for t |
| `Synch.RunLockKeepsOwner` | kern/thread/synch.c:191-273 | over any sequence of init, acquire, tryacquire and release, a held lock always has an owner for whom `lock_do_i_hold` is true |
| `Synch.LockReleaseFixed` | kern/thread/synch.c:260-276 | the corrected release clears the held flag and the owner when the caller owns the lock, and otherwise changes nothing |
| `Synch.RunLockFixedOwnership` | kern/thread/synch.c:278-291 | with the corrected release, over any operation sequence, held iff an owner is recorded; so `lock_do_i_hold` is true only for the current holder |
| `Synch.ReleasedOwnerLetsGoFixed` | kern/thread/synch.c:269-290 | with the corrected release, acquire then release leaves `lock_do_i_hold` false for t |
| `FileTable.FirstFile` | kern/fs/filetable.c:57 | `FIRST_FILE` tests only the cursor node's two links, both NULL; it does not look at whether a file is already stored |
| `FileTable.Init` | kern/fs/filetable.c:61-70 | one node, both links NULL, nothing stored, list consistent, and `FIRST_FILE` holds |
| `FileTable.Store` | kern/fs/filetable.c:75-76 | the file overwrites the cursor's slot; no node is added, no link changes, the list stays consistent |
| `FileTable.Append` | kern/fs/filetable.c:77-88 | on allocation failure: `ENOMEM` and the table unchanged. Otherwise: a new last node holding the file, with prev = old cursor; old cursor.next points to it; it becomes the cursor; returns 0; other nodes untouched; list stays consistent |
| `FileTable.AddFile` | kern/fs/filetable.c:72-89 | under `FIRST_FILE`, stores into the cursor and returns 0 with no allocation; otherwise appends. Returns 0 or `ENOMEM`; on 0 the cursor holds the file; the cursor stays last and every link is mirrored |
| `FileTable.AddAll` | kern/fs/filetable.c:72-89 | any sequence of adds keeps the list consistent: the cursor is last and every next/prev link is mirrored |
| `FileTable.SingleNodeStays` | kern/fs/filetable.c:57-89 | a one-node unlinked table stays one node with `FIRST_FILE` true under any adds, and its slot holds the last file added |
| `FileTable.SingleNodeAddsSucceed` | kern/fs/filetable.c:57-89 | in a one-node unlinked table, every add of any sequence returns 0, whatever the allocator would answer |
| `FileTable.FirstFileForever` | kern/fs/filetable.c:57-89 | from `filetable_init`, `FIRST_FILE` stays true forever: the table keeps one node, holding only the file added last |
| `FileTable.FirstFileAddSucceeds` | kern/fs/filetable.c:75-89 | under `FIRST_FILE` an add returns 0 and allocates nothing, whatever the allocator would answer |
| `FileTable.AddFileFixed` | kern/fs/filetable.c:57-89 | the corrected add stores into the cursor only when it is unlinked and still empty, and otherwise appends |
| `FileTable.AddAllFixed` | kern/fs/filetable.c:72-89 | any sequence of corrected adds keeps the list consistent |
| `FileTable.AddFileFixedAppends` | kern/fs/filetable.c:77-88 | one corrected add to a list holding files in linked order appends the new file as the next node after the last, keeping the chain mirrored |
| `FileTable.AddAllFixedAppends` | kern/fs/filetable.c:78-88 | once the list holds files in order (node 0 the head, each `next` the following node with its `prev` pointing back, the cursor last), corrected adds extend that linked order by each new file |
| `FileTable.AddAllFixedKeepsEveryFile` | kern/fs/filetable.c:57-89 | with the corrected test, adding files from the initial table leaves them all in the list, one per node, chained head to cursor by mirrored `next`/`prev` links in the order added, with the cursor on the last |
| `RunProgram.PaddedNameLength` | kern/syscall/runprogram.c:65-69 | the padded length is a multiple of 4, at least `strlen+1` and less than `strlen+5`; there is no padding when `strlen+1` is already aligned |
| `RunProgram.PaddedIsLeast` | kern/syscall/runprogram.c:65-69 | no multiple of 4 that holds the name and its terminator is smaller than the padded length |
| `RunProgram.LayOutStack` | kern/syscall/runprogram.c:109-116 | the name starts `progname_len` bytes below the stack top; `argv` occupies the two pointer slots just below it; `argv[0]` points at the name and `argv[1]` is NULL; with room on the stack, there is no wrap |
| `RunProgram.Bump` | kern/syscall/runprogram.c:123 | one `f_refcount++` raises that file's count by one modulo 2^32, leaves every other count unchanged and keeps the set of known files |
| `RunProgram.BumpStd` | kern/syscall/runprogram.c:123-125 | the three increments keep the set of known files |
| `RunProgram.BumpStdCounts` | kern/syscall/runprogram.c:123-125 | each file's count rises, modulo 2^32, by the number of descriptors 0–2 that refer to it; all other counts are unchanged |
| `RunProgram.BumpStdEvery` | kern/syscall/runprogram.c:123-125 | for every known file at once, its count after the three increments is the old count plus the number of descriptors 0–2 that refer to it, modulo 2^32 |
| `RunProgram.BumpStdDistinct` | kern/syscall/runprogram.c:123-125 | when descriptors 0–2 name three different files, each of those counts rises by exactly one and no other count changes |
| `RunProgram.EarlyExit` | kern/syscall/runprogram.c:72-97 | the three error returns before the image is loaded: the `vfs_open` code with no other call; `ENOMEM` after `as_create` fails, with the vnode closed; the `load_elf` code after activating, with the vnode closed. No count changes, no stack is laid out, and the vnode is closed exactly once after a successful open |
| `RunProgram.Launch` | kern/syscall/runprogram.c:99-130 | after a successful load, the vnode is closed once, before the stack is defined. On a stack error, its code is returned, the counts are unchanged, and there is no layout and no user-mode entry. Otherwise the standard counts are bumped and user mode is entered with argc 1, argv and stack pointer both at the `argv` slots, NULL environment, and the loaded entry point |
| `RunProgram.RunProgram` | kern/syscall/runprogram.c:54-135 | a `vfs_open` error is returned before any address space exists. A failed `as_create` returns `ENOMEM`. `load_elf` and `as_define_stack` errors are returned as is. After a successful open the calls are `vfs_open`, `as_create`, `vfs_close` when `as_create` fails, and otherwise begin `vfs_open`, `as_create`, `as_activate`, `load_elf`, `vfs_close`. User mode is entered iff all four calls succeed. After a successful open the vnode is closed exactly once on every path. Counts change only on entry to user mode; a returned error has no user-mode entry and no stack layout. The stack layout matches the padded name length |
| `RunProgram.CloseOrderedPrefix` | kern/syscall/runprogram.c:81-103 | both call lists a successful open can begin with place the close after the load attempt, or after the failed `as_create` with no load, and before any stack definition or user-mode entry |
| `RunProgram.CloseFollowsLoad` | kern/syscall/runprogram.c:81-103 | after a successful open, the close comes after the load attempt, or after the failed `as_create` with no load attempted, and before the stack is defined or user mode is entered |

## Left out

- Wait channels, spinlocks, the HANGMAN deadlock-detector hooks, the
  interrupt-context assertion in `P`, and the order in which sleepers
  wake are not modelled. These are scheduler machinery. Blocking is only
  the `Blocked` outcome of a step, and a sleeping thread retrying is
  another call of the same step.
- `cv_create`, `cv_destroy`, `cv_wait`, `cv_signal` and `cv_broadcast`
  are not modelled; the condition-variable functions are empty stubs.
- `sem_destroy`, `lock_destroy` and the `kfree` calls of the create
  failure paths are not modelled (memory management). `lock_destroy`
  never frees the wait channel. The three allocations of a create are
  one `allocOk` outcome.
- `Synch.LockDoIHold`: reads `lk_owner` without taking the spinlock. The
  model treats the read as one atomic step.
- `Misc.KStrdup`: a buffer is a value, so the copy being a fresh
  allocation, distinct from `s`, is not expressed.
- `Misc.StrError`: the message table `sys_errlist` and its length
  `sys_nerr` are a parameter. `kern/errmsg.h` is not part of this model.
- `Misc.RemoveDeviceFromPath`: the caller's buffer is passed in as a
  value and its new contents are returned, instead of being changed in
  place.
- `RunProgram.RunProgram`: descriptors 0–2 are required to name known
  files only when every call succeeds, because only the success path reads
  them (`kern/syscall/runprogram.c:123-125`). There a NULL descriptor would
  be dereferenced unchecked and fault; that fault is not modelled.
- `RunProgram.RunProgram`: program names whose padded length would wrap
  a 32-bit `size_t` (`strlen` of 2^32 − 4 or more) are excluded by its
  precondition.
- `RunProgram.RunProgram`: the VFS, VM and ELF calls (`vfs_open`,
  `as_create`, `proc_setas`, `as_activate`, `load_elf`, `vfs_close`,
  `as_define_stack`, `enter_new_process`) are foreign code. They appear
  only as outcomes and as entries in the call list, except `proc_setas`,
  which has neither and is dropped: it installs the address space on the
  current process and returns nothing. The
  `proc_getas() == NULL` assertion and the unreachable `panic` after
  `enter_new_process` are not modelled.
- `RunProgram.Launch`: the bytes written to the user stack are not
  modelled. The `memcpy` copies `progname_len` bytes from a buffer of
  only `strlen + 1`, so the padding bytes are whatever follows. The
  result of `kstrdup` at line 63 is used unchecked and is assumed to
  succeed.
- `filetable_init`'s failure check tests an undeclared variable and
  returns a value from a `void` function. Initialisation is modelled as
  always succeeding.
- `kern/include/fs.h` and `kern/include/syscall.h` hold declarations
  only. `FileTable.FsFile` takes its field names from `struct fs_file`.
- `kern/syscall/files_syscalls.c` (`sys_open` ignores its arguments and
  returns 0) and `kern/syscall/proc_syscalls.c` (thin wrappers over the
  current process, `as_destroy` and `thread_exit`) have no logic to
  model.
- `sys_dup2`, `sys_lseek`, `sys_fork` and `sys_waitpid`, declared in
  `kern/include/syscall.h`, and the per-process descriptor table are not
  in the files modelled. The table appears only as the descriptors 0–2
  that `runprogram` dereferences (`RunProgram.StdStreamsOpen`).
- The user test programs do I/O through system calls and make no
  assertions. Two of their `chdir` paths are the inputs of
  `Misc.DevicePathLosesSlash` and `Misc.PlainPathGainsSlash`.

## Findings

| source | as written | input that shows it | evidently intended | confidence | as-written member | corrected member |
|---|---|---|---|---|---|---|
| kern/lib/misc.c:82 | `size = size - i` leaves the working length one past the last character after the colon. The slash test then reads the shifted terminator, and the appended `/` lands after the NUL | `emu0:/prova/paolo` with `size` 17 becomes the C string `/prova/paolo`, while `pippo` becomes `pippo/`; `emu0:` becomes the empty string | `size = size - i - 1`, with an empty path also getting its `/`, so every result ends in `/` as the comment above the routine says | medium (assumes callers pass `strlen` as `size`); not executed | `Misc.DevicePathLosesSlash` | `Misc.StripDeviceFixedPath` |
| kern/thread/synch.c:271-273 | `lock_release` clears `lk_value` but never `lk_owner` | thread t acquires and then releases a free lock: the lock is free, yet `lock_do_i_hold` answers true for t | also reset `lk_owner` to NULL, so `lock_do_i_hold` is true only for the current holder | high; not executed | `Synch.ReleasedOwnerStillHolds` | `Synch.RunLockFixedOwnership` |
| kern/fs/filetable.c:57 | `FIRST_FILE` looks only at the cursor's links. An initialised table never gets a link, so every add overwrites the one stored file | `filetable_init`, then add A, then add B: the table holds only B, in one node | treat the table as in its first-file state only while nothing is stored yet, so the second add appends | high; not executed | `FileTable.FirstFileForever` | `FileTable.AddAllFixedKeepsEveryFile` |

=== FILE: filetable.dfy ===
/**
 The system file table of `filetable.c`: a doubly linked list of nodes,
 each holding one open file by value, reached through a cursor that points
 at the newest node.

 The heap of nodes is a sequence; a node's address is its index and
 `kmalloc` of a node appends one. NULL links are `None`.
 */
module FileTable {
  import opened Types

  /** `struct fs_file` by value: the vnode, access mode, offset, the
      per-file lock flag and the reference count (its own list links are
      not used by this table). */
  datatype FsFile = FsFile(vnode: nat, mode: Unsigned, offset: Unsigned, locked: bool, refcount: Unsigned)

  /** One list node: the file it holds (`None` until something is stored,
      as `kmalloc` leaves it uninitialised) and its two links. */
  datatype Node = Node(current: Option<FsFile>, next: Option<nat>, prev: Option<nat>)

  /** The node heap and the cursor `sys_filetable`. */
  datatype Table = Table(nodes: seq<Node>, cursor: nat)

  /** The list is consistent: the cursor is a node with no successor, and
      every link points at a node whose link in the other direction points
      back. */
  predicate WellFormed(t: Table) {
    && t.cursor < |t.nodes|
    && t.nodes[t.cursor].next.None?
    && (forall k :: 0 <= k < |t.nodes| && t.nodes[k].next.Some? ==>
          t.nodes[k].next.value < |t.nodes| && t.nodes[t.nodes[k].next.value].prev == Some(k))
    && (forall k :: 0 <= k < |t.nodes| && t.nodes[k].prev.Some? ==>
          t.nodes[k].prev.value < |t.nodes| && t.nodes[t.nodes[k].prev.value].next == Some(k))
  }

  /** `FIRST_FILE`: the cursor node has neither neighbour. */
  predicate FirstFile(t: Table)
    requires t.cursor < |t.nodes|
  {
    t.nodes[t.cursor].next.None? && t.nodes[t.cursor].prev.None?
  }

  /** `filetable_init()`: one node, no links, nothing stored. */
  function Init(): (t: Table)
    ensures WellFormed(t) && FirstFile(t)
    ensures |t.nodes| == 1 && t.nodes[t.cursor].current.None?
  {
    Table([Node(None, None, None)], 0)
  }

  /** The `FIRST_FILE` branch: the file overwrites the cursor's slot. */
  function Store(t: Table, f: FsFile): (r: Table)
    requires WellFormed(t)
    ensures WellFormed(r)
    ensures r.cursor == t.cursor && |r.nodes| == |t.nodes|
    ensures r.nodes[r.cursor] == t.nodes[t.cursor].(current := Some(f))
    ensures forall k :: 0 <= k < |t.nodes| && k != t.cursor ==> r.nodes[k] == t.nodes[k]
  {
    t.(nodes := t.nodes[t.cursor := t.nodes[t.cursor].(current := Some(f))])
  }

  /** The other branch: a new node holding the file is linked after the
      cursor and becomes the cursor; `ENOMEM` and no change when the node
      cannot be allocated (`allocOk` is the outcome of `kmalloc`). */
  function Append(t: Table, f: FsFile, allocOk: bool): (r: (Table, int))
    requires WellFormed(t)
    ensures WellFormed(r.0)
    ensures !allocOk ==> r == (t, ENOMEM)
    ensures allocOk ==>
              && r.1 == 0
              && |r.0.nodes| == |t.nodes| + 1
              && r.0.cursor == |t.nodes|
              && r.0.nodes[r.0.cursor] == Node(Some(f), None, Some(t.cursor))
              && r.0.nodes[t.cursor] == t.nodes[t.cursor].(next := Some(r.0.cursor))
              && (forall k :: 0 <= k < |t.nodes| && k != t.cursor ==> r.0.nodes[k] == t.nodes[k])
  {
    if !allocOk then (t, ENOMEM)
    else
      var n := |t.nodes|;
      var nodes := t.nodes[t.cursor := t.nodes[t.cursor].(next := Some(n))] + [Node(Some(f), None, Some(t.cursor))];
      (Table(nodes, n), 0)
  }

  /** `filetable_addfile(newfile)`: the new table and the return value. */
  function AddFile(t: Table, f: FsFile, allocOk: bool): (r: (Table, int))
    requires WellFormed(t)
    ensures WellFormed(r.0)
    ensures r.1 == 0 || r.1 == ENOMEM
    ensures FirstFile(t) ==> r == (Store(t, f), 0)
    ensures !FirstFile(t) ==> r == Append(t, f, allocOk)
    ensures r.1 == 0 ==> r.0.nodes[r.0.cursor].current == Some(f)
  {
    if FirstFile(t) then (Store(t, f), 0) else Append(t, f, allocOk)
  }

  /** Adds the files in order; each pairs a file with its allocation
      outcome. Returns the final table. */
  function AddAll(t: Table, adds: seq<(FsFile, bool)>): (r: Table)
    requires WellFormed(t)
    ensures WellFormed(r)
    decreases |adds|
  {
    if adds == [] then t else AddAll(AddFile(t, adds[0].0, adds[0].1).0, adds[1..])
  }

  /** From the initial table `FIRST_FILE` stays true forever: every add
      returns 0 without allocating and overwrites the one stored file, so
      the table never holds more than the file added last. */
  lemma FirstFileForever(adds: seq<(FsFile, bool)>)
    ensures var t := AddAll(Init(), adds);
            |t.nodes| == 1 && t.cursor == 0 && FirstFile(t)
    ensures adds != [] ==> AddAll(Init(), adds).nodes[0].current == Some(adds[|adds| - 1].0)
  {
    SingleNodeStays(Init(), adds);
  }

  /** A table with one unlinked node stays so under any adds, and its slot
      ends up holding the last file added. */
  lemma {:induction false} SingleNodeStays(t: Table, adds: seq<(FsFile, bool)>)
    requires WellFormed(t) && |t.nodes| == 1 && FirstFile(t)
    ensures var r := AddAll(t, adds);
            |r.nodes| == 1 && r.cursor == 0 && FirstFile(r)
    ensures adds != [] ==> AddAll(t, adds).nodes[0].current == Some(adds[|adds| - 1].0)
    ensures adds == [] ==> AddAll(t, adds) == t
    decreases |adds|
  {
    if adds != [] {
      var t' := AddFile(t, adds[0].0, adds[0].1);
      assert AddFile(t, adds[0].0, adds[0].1).1 == 0;
      SingleNodeStays(t'.0, adds[1..]);
      if adds[1..] != [] {
        assert adds[1..][|adds[1..]| - 1] == adds[|adds| - 1];
      }
    }
  }

  /** In a one-node unlinked table every add of a sequence returns 0: the
      `k`-th add meets the table the earlier adds left, still in the
      first-file state. */
  lemma SingleNodeAddsSucceed(t: Table, adds: seq<(FsFile, bool)>, k: nat)
    requires WellFormed(t) && |t.nodes| == 1 && FirstFile(t) && k < |adds|
    ensures AddFile(AddAll(t, adds[..k]), adds[k].0, adds[k].1).1 == 0
  {
    SingleNodeStays(t, adds[..k]);
  }

  /** Every add to a table in the first-file state succeeds, whatever the
      allocator would have answered. */
  lemma FirstFileAddSucceeds(t: Table, f: FsFile, allocOk: bool)
    requires WellFormed(t) && FirstFile(t)
    ensures AddFile(t, f, allocOk).1 == 0
    ensures |AddFile(t, f, allocOk).0.nodes| == |t.nodes|
  {
  }

  // ---------------------------------------------------------------------
  // The evidently intended test: the first file is the one stored into an
  // empty cursor node

  /** `FIRST_FILE` also requiring that nothing is stored yet. */
  predicate FirstFileFixed(t: Table)
    requires t.cursor < |t.nodes|
  {
    FirstFile(t) && t.nodes[t.cursor].current.None?
  }

  /** `filetable_addfile` with the corrected first-file test. */
  function AddFileFixed(t: Table, f: FsFile, allocOk: bool): (r: (Table, int))
    requires WellFormed(t)
    ensures WellFormed(r.0)
    ensures FirstFileFixed(t) ==> r == (Store(t, f), 0)
    ensures !FirstFileFixed(t) ==> r == Append(t, f, allocOk)
  {
    if FirstFileFixed(t) then (Store(t, f), 0) else Append(t, f, allocOk)
  }

  /** Adds the files in order with the corrected test, every allocation
      succeeding. */
  function AddAllFixed(t: Table, files: seq<FsFile>): (r: Table)
    requires WellFormed(t)
    ensures WellFormed(r)
    decreases |files|
  {
    if files == [] then t else AddAllFixed(AddFileFixed(t, files[0], true).0, files[1..])
  }

  /** The list holds `files` in order, one per node: node 0 is the head,
      each node's `next` is the following node and that node's `prev`
      points back, and the cursor is on the last one. */
  predicate HoldsInOrder(t: Table, files: seq<FsFile>) {
    && |files| > 0
    && |t.nodes| == |files|
    && t.cursor == |files| - 1
    && t.nodes[0].prev.None?
    && (forall k :: 0 <= k < |files| ==> t.nodes[k].current == Some(files[k]))
    && (forall k :: 0 <= k < |files| - 1 ==> t.nodes[k].next == Some(k + 1) && t.nodes[k + 1].prev == Some(k))
  }

  /** One corrected add to a list holding `held` in order links the new
      file after the last one. */
  lemma AddFileFixedAppends(t: Table, held: seq<FsFile>, f: FsFile)
    requires WellFormed(t) && HoldsInOrder(t, held)
    ensures HoldsInOrder(AddFileFixed(t, f, true).0, held + [f])
  {
    assert !FirstFileFixed(t);
    var r := Append(t, f, true).0;
    var fs := held + [f];
    forall k | 0 <= k < |fs|
      ensures r.nodes[k].current == Some(fs[k])
    {
    }
    forall k | 0 <= k < |fs| - 1
      ensures r.nodes[k].next == Some(k + 1) && r.nodes[k + 1].prev == Some(k)
    {
    }
  }

  /** Appending in the non-first state extends the held files by one. */
  lemma {:induction false} AddAllFixedAppends(t: Table, held: seq<FsFile>, files: seq<FsFile>)
    requires WellFormed(t) && HoldsInOrder(t, held)
    ensures HoldsInOrder(AddAllFixed(t, files), held + files)
    decreases |files|
  {
    if files != [] {
      var t' := AddFileFixed(t, files[0], true).0;
      AddFileFixedAppends(t, held, files[0]);
      assert AddAllFixed(t, files) == AddAllFixed(t', files[1..]);
      AddAllFixedAppends(t', held + [files[0]], files[1..]);
      assert held + [files[0]] + files[1..] == held + files;
    }
  }

  /** With the corrected test no file is ever overwritten: from the
      initial table, adding a non-empty sequence of files (every
      allocation succeeding) leaves them all in the list in order. */
  lemma AddAllFixedKeepsEveryFile(files: seq<FsFile>)
    requires files != []
    ensures HoldsInOrder(AddAllFixed(Init(), files), files)
  {
    var t := AddFileFixed(Init(), files[0], true).0;
    assert HoldsInOrder(t, [files[0]]);
    AddAllFixedAppends(t, [files[0]], files[1..]);
    assert [files[0]] + files[1..] == files;
  }
}

=== FILE: misc.dfy ===
/**
 Kernel string helpers: C strings over character buffers, `strerror`,
 `kstrdup`, and `remove_device_from_path`, which strips a device prefix
 such as "emu0:" from a path held in a character buffer.

 A C buffer is a `seq<char>`; the string it holds ends at its first NUL.
 */
module Misc {
  import opened Types

  const NUL: char := '\0'

  // ---------------------------------------------------------------------
  // C strings

  /** The buffer holds a terminated C string. */
  predicate IsCString(s: seq<char>) {
    NUL in s
  }

  /** `strlen`: the index of the first NUL. */
  function Strlen(s: seq<char>): (n: nat)
    requires IsCString(s)
    ensures n < |s| && s[n] == NUL
    ensures forall k :: 0 <= k < n ==> s[k] != NUL
  {
    if s[0] == NUL then 0
    else
      assert NUL in s[1..] by {
        var k :| 0 <= k < |s| && s[k] == NUL;
        assert s[1..][k - 1] == NUL;
      }
      1 + Strlen(s[1..])
  }

  /** The characters of the C string held in `s`, without its terminator. */
  function CStr(s: seq<char>): (r: seq<char>)
    requires IsCString(s)
    ensures NUL !in r
    ensures r + [NUL] == s[..Strlen(s) + 1]
  {
    s[..Strlen(s)]
  }

  /** A NUL at `m` with none before it is where the C string ends. */
  lemma CStrEndsAt(s: seq<char>, m: nat)
    requires m < |s| && s[m] == NUL
    requires forall k :: 0 <= k < m ==> s[k] != NUL
    ensures IsCString(s) && Strlen(s) == m && CStr(s) == s[..m]
  {
    assert s[m] == NUL;
  }

  // ---------------------------------------------------------------------
  // strerror and kstrdup

  /** `strerror(errcode)` over the message table `errlist` (`sys_errlist`,
      whose length is `sys_nerr`). None is the kernel panic on a code
      outside the table. */
  function StrError(errlist: seq<string>, errcode: int): (r: Option<string>)
    ensures r.Some? <==> 0 <= errcode < |errlist|
    ensures r.Some? ==> r.value == errlist[errcode]
  {
    if 0 <= errcode < |errlist| then Some(errlist[errcode]) else None
  }

  /** `kstrdup(s)`: a copy of the C string `s` in a buffer of exactly
      `strlen(s) + 1` bytes, or NULL when the allocation fails (`allocOk`
      stands for the outcome of `kmalloc`). */
  function KStrdup(s: seq<char>, allocOk: bool): (r: Option<seq<char>>)
    requires IsCString(s)
    ensures r.Some? <==> allocOk
    ensures r.Some? ==> |r.value| == Strlen(s) + 1
    ensures r.Some? ==> IsCString(r.value) && Strlen(r.value) == Strlen(s)
    ensures r.Some? ==> CStr(r.value) == CStr(s)
  {
    if !allocOk then None
    else
      var n := Strlen(s);
      CStrEndsAt(s[..n + 1], n);
      Some(s[..n + 1])
  }

  // ---------------------------------------------------------------------
  // remove_device_from_path

  /** Where the colon scan stops when started at `i`: the first ':' at or
      after `i` and below `size`, or `size` when there is none. Like the
      C loop it reads the byte at `size` before comparing the index. */
  function ScanColon(buf: seq<char>, size: nat, i: nat): (r: nat)
    requires i <= size < |buf|
    ensures i <= r <= size
    ensures forall k :: i <= k < r ==> buf[k] != ':'
    ensures r < size ==> buf[r] == ':'
    decreases size - i
  {
    if buf[i] != ':' && i < size then ScanColon(buf, size, i + 1) else i
  }

  /** The first `size` bytes name a device: some ':' occurs among them. */
  predicate HasDevice(buf: seq<char>, size: nat)
    requires size <= |buf|
  {
    exists k :: 0 <= k < size && buf[k] == ':'
  }

  /** Index of the first ':' below `size`, or `size` when there is none. */
  function FirstColon(buf: seq<char>, size: nat): (c: nat)
    requires size < |buf|
    ensures c <= size
    ensures c < size <==> HasDevice(buf, size)
    ensures c < size ==> buf[c] == ':' && forall k :: 0 <= k < c ==> buf[k] != ':'
  {
    ScanColon(buf, size, 0)
  }

  /** The value `size` holds when the trailing-slash test runs: `size - i`
      once a prefix through the colon at `i` is removed, else `size`. */
  function WorkingLength(buf: seq<char>, size: nat): nat
    requires size < |buf|
  {
    var c := FirstColon(buf, size);
    if c < size then size - c else size
  }

  /** The byte the trailing-slash test inspects, named in the input: the
      old byte at `size` when a prefix was removed (it was shifted down to
      `size - i - 1`), the byte at `size - 1` otherwise. */
  function TestedByte(buf: seq<char>, size: nat): char
    requires 1 <= size < |buf|
  {
    if HasDevice(buf, size) then buf[size] else buf[size - 1]
  }

  /** Index at which the terminating NUL is written. */
  function NulIndex(buf: seq<char>, size: nat): nat
    requires 1 <= size < |buf|
  {
    WorkingLength(buf, size) + (if TestedByte(buf, size) != '/' then 1 else 0)
  }

  /** What the routine needs of its caller to stay inside the buffer:
      `size >= 1` (the test reads index `size - 1`), the byte at `size`
      exists (the scan and the shift read it) and so does the byte the NUL
      is written to. */
  predicate PathArgs(buf: seq<char>, size: nat) {
    1 <= size < |buf| && NulIndex(buf, size) < |buf|
  }

  /** The rewritten buffer and the routine's return value. */
  datatype PathResult = PathResult(path: seq<char>, retval: int)

  /** The buffer after the shift loop: bytes `i+1 .. size` moved down to
      `0 .. size-i-1`, everything from `size - i` on untouched. */
  function Shift(buf: seq<char>, i: nat, size: nat): (r: seq<char>)
    requires i < size < |buf|
    ensures |r| == |buf|
    ensures forall k :: 0 <= k < size - i ==> r[k] == buf[k + i + 1]
    ensures forall k :: size - i <= k < |buf| ==> r[k] == buf[k]
  {
    buf[i + 1..size + 1] + buf[size - i..]
  }

  /** The final step: append '/' at `n` unless the byte at `n - 1` is one,
      then write NUL after the path. */
  function Terminate(b: seq<char>, n: nat): (r: seq<char>)
    requires 1 <= n < |b| && n + (if b[n - 1] != '/' then 1 else 0) < |b|
    ensures |r| == |b|
    ensures b[n - 1] != '/' ==> r[n] == '/' && r[n + 1] == NUL
    ensures b[n - 1] != '/' ==> forall k :: 0 <= k < |b| && k != n && k != n + 1 ==> r[k] == b[k]
    ensures b[n - 1] == '/' ==> r[n] == NUL
    ensures b[n - 1] == '/' ==> forall k :: 0 <= k < |b| && k != n ==> r[k] == b[k]
  {
    if b[n - 1] != '/' then b[n := '/'][n + 1 := NUL] else b[n := NUL]
  }

  /** The colon branch: the shift past the colon at `c`, then the final
      step on working length `size - c`, whose tested byte is the old byte
      at `size`. */
  function DropPrefix(buf: seq<char>, size: nat, c: nat): (r: seq<char>)
    requires c < size < |buf| && size - c + (if buf[size] != '/' then 1 else 0) < |buf|
    ensures |r| == |buf|
    ensures forall k :: 0 <= k < size - c ==> r[k] == buf[k + c + 1]
    ensures buf[size] != '/' ==> r[size - c] == '/' && r[size - c + 1] == NUL
    ensures buf[size] == '/' ==> r[size - c] == NUL
    ensures forall k :: size - c + (if buf[size] != '/' then 1 else 0) < k < |buf| ==> r[k] == buf[k]
  {
    var b := Shift(buf, c, size);
    assert b[size - c - 1] == buf[size];
    Terminate(b, size - c)
  }

  /** `remove_device_from_path(original, size)` as a function of the
      buffer: returns 1 and drops the prefix through the first ':' when
      one occurs below `size`, returns 0 otherwise; in both cases appends
      '/' unless the tested byte already is one, then a NUL. */
  function StripDevice(buf: seq<char>, size: nat): (r: PathResult)
    requires PathArgs(buf, size)
    ensures |r.path| == |buf|
    ensures r.retval == 1 <==> HasDevice(buf, size)
    ensures r.retval == 0 <==> !HasDevice(buf, size)
    // the device prefix through the first colon is gone ...
    ensures HasDevice(buf, size) ==>
              var c := FirstColon(buf, size);
              WorkingLength(buf, size) == size - c &&
              forall k :: 0 <= k < size - c ==> r.path[k] == buf[k + c + 1]
    // ... and without a device the path stays where it was
    ensures !HasDevice(buf, size) ==>
              WorkingLength(buf, size) == size &&
              forall k :: 0 <= k < size ==> r.path[k] == buf[k]
    // the slash and the terminator
    ensures TestedByte(buf, size) != '/' ==>
              r.path[WorkingLength(buf, size)] == '/' && r.path[WorkingLength(buf, size) + 1] == NUL
    ensures TestedByte(buf, size) == '/' ==> r.path[WorkingLength(buf, size)] == NUL
    // nothing past the terminator changes
    ensures forall k :: NulIndex(buf, size) < k < |buf| ==> r.path[k] == buf[k]
  {
    if FirstColon(buf, size) < size then
      var p := DropPrefix(buf, size, FirstColon(buf, size));
      DeviceCase(buf, size, p);
      PathResult(p, 1)
    else
      var p := Terminate(buf, size);
      PlainCase(buf, size, p);
      PathResult(p, 0)
  }

  /** The colon branch of `StripDevice` meets its contract. */
  lemma DeviceCase(buf: seq<char>, size: nat, p: seq<char>)
    requires PathArgs(buf, size) && FirstColon(buf, size) < size
    requires p == DropPrefix(buf, size, FirstColon(buf, size))
    ensures HasDevice(buf, size) && |p| == |buf|
    ensures WorkingLength(buf, size) == size - FirstColon(buf, size)
    ensures forall k :: 0 <= k < size - FirstColon(buf, size) ==> p[k] == buf[k + FirstColon(buf, size) + 1]
    ensures TestedByte(buf, size) != '/' ==>
              p[WorkingLength(buf, size)] == '/' && p[WorkingLength(buf, size) + 1] == NUL
    ensures TestedByte(buf, size) == '/' ==> p[WorkingLength(buf, size)] == NUL
    ensures forall k :: NulIndex(buf, size) < k < |buf| ==> p[k] == buf[k]
  {
    var c := FirstColon(buf, size);
    assert TestedByte(buf, size) == buf[size];
    assert NulIndex(buf, size) == size - c + (if buf[size] != '/' then 1 else 0);
  }

  /** The branch of `StripDevice` without a colon meets its contract. */
  lemma PlainCase(buf: seq<char>, size: nat, p: seq<char>)
    requires PathArgs(buf, size) && FirstColon(buf, size) == size
    requires p == Terminate(buf, size)
    ensures !HasDevice(buf, size) && |p| == |buf|
    ensures WorkingLength(buf, size) == size
    ensures forall k :: 0 <= k < size ==> p[k] == buf[k]
    ensures TestedByte(buf, size) != '/' ==>
              p[WorkingLength(buf, size)] == '/' && p[WorkingLength(buf, size) + 1] == NUL
    ensures TestedByte(buf, size) == '/' ==> p[WorkingLength(buf, size)] == NUL
    ensures forall k :: NulIndex(buf, size) < k < |buf| ==> p[k] == buf[k]
  {
    assert TestedByte(buf, size) == buf[size - 1];
    assert NulIndex(buf, size) == size + (if buf[size - 1] != '/' then 1 else 0);
  }

  /** The in-place routine of the kernel, loop for loop. The caller's
      buffer is passed in and its new contents are returned. */
  method RemoveDeviceFromPath(original: seq<char>, size: nat) returns (path: seq<char>, retval: int)
    requires PathArgs(original, size)
    ensures PathResult(path, retval) == StripDevice(original, size)
    ensures retval == 1 <==> HasDevice(original, size)
  {
    var b := original;
    var i: nat := 0;
    // look for the position of the ':'
    while b[i] != ':' && i < size
      invariant i <= size
      invariant ScanColon(original, size, i) == FirstColon(original, size)
      decreases size - i
    {
      i := i + 1;
    }
    assert i == FirstColon(original, size);
    var n := size;
    if i < size {
      b := ShiftDown(original, i, size);
      n := size - i;
      retval := 1;
    } else {
      retval := 0;
    }
    ghost var before := b;
    if b[n - 1] != '/' {
      b := b[n := '/'];
      n := n + 1;
    }
    b := b[n := NUL];
    assert b == Terminate(before, WorkingLength(original, size));
    path := b;
  }

  /** The copy loop of the routine: moves bytes `i+1 .. size` down by
      `i + 1`, one at a time from the front. */
  method ShiftDown(original: seq<char>, i: nat, size: nat) returns (b: seq<char>)
    requires i < size < |original|
    ensures b == Shift(original, i, size)
  {
    b := original;
    var j := 0;
    while j < size - i
      invariant j <= size - i
      invariant |b| == |original|
      invariant forall k :: 0 <= k < j ==> b[k] == original[k + i + 1]
      invariant forall k :: j <= k < |b| ==> b[k] == original[k]
    {
      b := b[j := b[j + i + 1]];
      j := j + 1;
    }
  }

  // ---------------------------------------------------------------------
  // What a caller sees: the C string left in the buffer

  /** `buf` holds a C string of exactly `size` characters. */
  predicate PathOfLength(buf: seq<char>, size: nat) {
    size < |buf| && buf[size] == NUL && forall k :: 0 <= k < size ==> buf[k] != NUL
  }

  /** The path with a '/' appended unless it already ends in one. */
  function WithSlash(p: seq<char>): (r: seq<char>)
    ensures |p| <= |r| && r[..|p|] == p
    ensures |r| > 0 && r[|r| - 1] == '/'
  {
    if |p| > 0 && p[|p| - 1] == '/' then p else p + ['/']
  }

  /** Given a C string of length `size`, the routine without a device
      prefix leaves the path with a trailing slash. */
  lemma StripDeviceKeepsPlainPath(buf: seq<char>, size: nat)
    requires PathArgs(buf, size) && PathOfLength(buf, size) && !HasDevice(buf, size)
    ensures IsCString(StripDevice(buf, size).path)
    ensures CStr(StripDevice(buf, size).path) == WithSlash(buf[..size])
  {
    var r := StripDevice(buf, size).path;
    var p := buf[..size];
    if buf[size - 1] != '/' {
      CStrEndsAt(r, size + 1);
      assert r[..size + 1] == p + ['/'];
    } else {
      CStrEndsAt(r, size);
      assert r[..size] == p;
    }
  }

  /** A buffer whose first `size - c` bytes are those after index `c` of a
      C string of length `size` holds the C string of those characters. */
  lemma ShiftedCStr(r: seq<char>, buf: seq<char>, c: nat, size: nat)
    requires PathOfLength(buf, size) && c < size && size - c <= |r|
    requires forall k :: 0 <= k < size - c ==> r[k] == buf[k + c + 1]
    ensures IsCString(r) && CStr(r) == buf[c + 1..size]
  {
    var m := size - c - 1;
    assert r[m] == buf[size];
    CStrEndsAt(r, m);
    assert r[..m] == buf[c + 1..size];
  }

  /** Given a C string of length `size` with a device prefix, the routine
      leaves exactly the characters after the first colon: the byte it
      tests is the shifted-down terminator, so the '/' it appends lands
      after the NUL and is not part of the string. */
  lemma StripDeviceDropsSlash(buf: seq<char>, size: nat)
    requires PathArgs(buf, size) && PathOfLength(buf, size) && HasDevice(buf, size)
    ensures IsCString(StripDevice(buf, size).path)
    ensures CStr(StripDevice(buf, size).path) == buf[FirstColon(buf, size) + 1..size]
  {
    ShiftedCStr(StripDevice(buf, size).path, buf, FirstColon(buf, size), size);
  }

  /** The test program's `chdir("emu0:/prova/paolo")`: the device path
      comes back without a trailing slash ... */
  lemma DevicePathLosesSlash()
    ensures var buf := "emu0:/prova/paolo" + [NUL, NUL];
            PathArgs(buf, 17) &&
            IsCString(StripDevice(buf, 17).path) &&
            CStr(StripDevice(buf, 17).path) == "/prova/paolo"
  {
    var buf := "emu0:/prova/paolo" + [NUL, NUL];
    assert buf[4] == ':';
    assert PathOfLength(buf, 17);
    assert FirstColon(buf, 17) == 4;
    StripDeviceDropsSlash(buf, 17);
    assert buf[5..17] == "/prova/paolo";
  }

  /** ... while `chdir("pippo")` gets one. */
  lemma PlainPathGainsSlash()
    ensures var buf := "pippo" + [NUL, NUL];
            PathArgs(buf, 5) &&
            IsCString(StripDevice(buf, 5).path) &&
            CStr(StripDevice(buf, 5).path) == "pippo/"
  {
    var buf := "pippo" + [NUL, NUL];
    assert PathOfLength(buf, 5);
    assert !HasDevice(buf, 5);
    StripDeviceKeepsPlainPath(buf, 5);
    assert buf[..5] == "pippo";
  }

  // ---------------------------------------------------------------------
  // The evidently intended routine: working length `size - i - 1`

  /** The final step with an empty path allowed: append '/' when the path
      is empty or does not end in one, then write NUL. */
  function TerminateFixed(b: seq<char>, n: nat): (r: seq<char>)
    requires n + 1 < |b|
    ensures |r| == |b|
  {
    if n == 0 || b[n - 1] != '/' then b[n := '/'][n + 1 := NUL] else b[n := NUL]
  }

  /** `remove_device_from_path` with the working length set to the number
      of characters after the colon. */
  function StripDeviceFixed(buf: seq<char>, size: nat): (r: PathResult)
    requires size + 1 < |buf|
    ensures |r.path| == |buf|
    ensures r.retval == 1 <==> HasDevice(buf, size)
    ensures r.retval == 0 <==> !HasDevice(buf, size)
  {
    var c := FirstColon(buf, size);
    if c < size then PathResult(TerminateFixed(Shift(buf, c, size), size - c - 1), 1)
    else PathResult(TerminateFixed(buf, size), 0)
  }

  /** The path after the device prefix, if any. */
  function PathTail(buf: seq<char>, size: nat): seq<char>
    requires size < |buf|
  {
    if HasDevice(buf, size) then buf[FirstColon(buf, size) + 1..size] else buf[..size]
  }

  /** Terminating a NUL-free path `p` held at the front of `b` leaves the C
      string `WithSlash(p)`. */
  lemma TerminateFixedPath(b: seq<char>, n: nat, p: seq<char>)
    requires n + 1 < |b| && b[..n] == p && NUL !in p
    ensures IsCString(TerminateFixed(b, n)) && CStr(TerminateFixed(b, n)) == WithSlash(p)
  {
    var r := TerminateFixed(b, n);
    if n == 0 || b[n - 1] != '/' {
      assert r[..n + 1] == p + ['/'];
      CStrEndsAt(r, n + 1);
    } else {
      assert r[..n] == p;
      CStrEndsAt(r, n);
    }
  }

  /** The corrected routine keeps the promise of its comment for every C
      string: the result is the path without its device prefix, ending in
      exactly one added '/' when it did not end in one already. */
  lemma StripDeviceFixedPath(buf: seq<char>, size: nat)
    requires size + 1 < |buf| && PathOfLength(buf, size)
    ensures IsCString(StripDeviceFixed(buf, size).path)
    ensures CStr(StripDeviceFixed(buf, size).path) == WithSlash(PathTail(buf, size))
  {
    var p := PathTail(buf, size);
    var c := FirstColon(buf, size);
    if c < size {
      var b := Shift(buf, c, size);
      assert b[..size - c - 1] == p;
      TerminateFixedPath(b, size - c - 1, p);
    } else {
      assert buf[..size] == p;
      TerminateFixedPath(buf, size, p);
    }
  }

  /** The corrected routine on the same test path ends it with '/'. */
  lemma DevicePathKeepsSlashFixed()
    ensures var buf := "emu0:/prova/paolo" + [NUL, NUL];
            IsCString(StripDeviceFixed(buf, 17).path) &&
            CStr(StripDeviceFixed(buf, 17).path) == "/prova/paolo/"
  {
    var buf := "emu0:/prova/paolo" + [NUL, NUL];
    assert buf[4] == ':';
    assert PathOfLength(buf, 17);
    assert FirstColon(buf, 17) == 4;
    StripDeviceFixedPath(buf, 17);
    assert PathTail(buf, 17) == "/prova/paolo";
  }
}

=== FILE: runprogram.dfy ===
/**
 `runprogram(progname)`: opens the executable, creates and activates an
 address space, loads the ELF image, defines the user stack, lays out the
 program name and a two-slot `argv` on it, bumps the reference counts of
 the three standard streams and warps to user mode.

 The VFS, VM and ELF calls are not modelled; their outcomes are the
 fields of `Env`. What the routine does with them is recorded as the
 sequence of calls it makes and the result it produces.
 */
module RunProgram {
  import opened Types
  import Misc

  /** `sizeof(char *)` on the 32-bit target. */
  const PTR_SIZE: int := 4

  /** A user-space virtual address (`vaddr_t`). */
  type VAddr = Unsigned

  // ---------------------------------------------------------------------
  // Name length

  /** `strlen(name) + 1` rounded up to a multiple of 4. */
  function PaddedNameLength(namelen: nat): (r: nat)
    ensures r % 4 == 0
    ensures namelen + 1 <= r < namelen + 1 + 4
    ensures (namelen + 1) % 4 == 0 ==> r == namelen + 1
  {
    var len := namelen + 1;
    if len % 4 != 0 then len + (4 - len % 4) else len
  }

  /** The padded length is the least multiple of 4 that holds the name and
      its terminator. */
  lemma PaddedIsLeast(namelen: nat, m: nat)
    requires m % 4 == 0 && namelen + 1 <= m
    ensures PaddedNameLength(namelen) <= m
  {
    var r := PaddedNameLength(namelen);
    var a, b := r / 4, m / 4;
    assert r == 4 * a && m == 4 * b;
    assert 4 * b > 4 * a - 4;
  }

  // ---------------------------------------------------------------------
  // Stack layout

  /** Where the program name and `argv` go below the stack top. */
  datatype StackLayout = StackLayout(nameAddr: VAddr, argvAddr: VAddr, argv0: VAddr, argv1: VAddr)

  /** The name occupies the `paddedLen` bytes just below `stackptr`, the
      two `argv` slots the `2 * PTR_SIZE` bytes just below the name;
      `argv[0]` points at the name and `argv[1]` is NULL. Addresses are
      32-bit and wrap. */
  function LayOutStack(stackptr: VAddr, paddedLen: Unsigned): (r: StackLayout)
    ensures Add32(r.nameAddr, paddedLen) == stackptr
    ensures Add32(r.argvAddr, 2 * PTR_SIZE) == r.nameAddr
    ensures r.argv0 == r.nameAddr && r.argv1 == 0
    ensures paddedLen + 2 * PTR_SIZE <= stackptr ==>
              r.nameAddr == stackptr - paddedLen && r.argvAddr == r.nameAddr - 2 * PTR_SIZE
  {
    var name := Sub32(stackptr, paddedLen);
    var argv := Sub32(name, 2 * PTR_SIZE);
    AddUndoesSub(stackptr, paddedLen);
    AddUndoesSub(name, 2 * PTR_SIZE);
    StackLayout(name, argv, name, 0)
  }

  // ---------------------------------------------------------------------
  // Standard-stream reference counts

  /** An open file, named by its address. */
  type FileId = nat

  /** Descriptors 0, 1 and 2 of the process table (`p_filetable`) refer to
      files known to the reference-count map, as the routine dereferences
      them unchecked. */
  predicate StdStreamsOpen(fds: seq<Option<FileId>>, refcounts: map<FileId, Unsigned>) {
    && |fds| >= 3
    && fds[0].Some? && fds[0].value in refcounts
    && fds[1].Some? && fds[1].value in refcounts
    && fds[2].Some? && fds[2].value in refcounts
  }

  /** `f_refcount++` on one file: its count rises by one (mod 2^32) and
      every other count is unchanged. */
  function Bump(refcounts: map<FileId, Unsigned>, f: FileId): (r: map<FileId, Unsigned>)
    requires f in refcounts
    ensures r.Keys == refcounts.Keys
    ensures r[f] == Inc32(refcounts[f])
    ensures forall g :: g in refcounts && g != f ==> r[g] == refcounts[g]
  {
    refcounts[f := Inc32(refcounts[f])]
  }

  /** `f_refcount++` on the files of descriptors 0, 1 and 2, in that order. */
  function BumpStd(fds: seq<Option<FileId>>, refcounts: map<FileId, Unsigned>): (r: map<FileId, Unsigned>)
    requires StdStreamsOpen(fds, refcounts)
    ensures r.Keys == refcounts.Keys
  {
    Bump(Bump(Bump(refcounts, fds[0].value), fds[1].value), fds[2].value)
  }

  /** How many of descriptors 0, 1, 2 refer to `f`. */
  function StdRefs(fds: seq<Option<FileId>>, f: FileId): nat
    requires |fds| >= 3
  {
    (if fds[0] == Some(f) then 1 else 0) +
    (if fds[1] == Some(f) then 1 else 0) +
    (if fds[2] == Some(f) then 1 else 0)
  }

  /** Each file's count rises (mod 2^32) by the number of standard
      descriptors that refer to it; every other count is unchanged. */
  lemma BumpStdCounts(fds: seq<Option<FileId>>, refcounts: map<FileId, Unsigned>, f: FileId)
    requires StdStreamsOpen(fds, refcounts) && f in refcounts
    ensures BumpStd(fds, refcounts)[f] == (refcounts[f] + StdRefs(fds, f)) % WORD_RANGE
  {
    var x := refcounts[f];
    var a := if fds[0] == Some(f) then 1 else 0;
    var b := if fds[1] == Some(f) then 1 else 0;
    var c := if fds[2] == Some(f) then 1 else 0;
    var r1 := Bump(refcounts, fds[0].value);
    var r2 := Bump(r1, fds[1].value);
    BumpOne(refcounts, fds[0].value, f, x, 0);
    BumpOne(r1, fds[1].value, f, x, a);
    BumpOne(r2, fds[2].value, f, x, a + b);
  }

  /** One increment seen from file `f`, whose count is `x` raised by `n`
      so far (mod 2^32): the count becomes `x + n + 1` when the increment is
      on `f`, and stays `x + n` otherwise. */
  lemma BumpOne(refcounts: map<FileId, Unsigned>, g: FileId, f: FileId, x: Unsigned, n: nat)
    requires g in refcounts && f in refcounts
    requires refcounts[f] == (x + n) % WORD_RANGE
    ensures Bump(refcounts, g)[f] == (x + n + (if g == f then 1 else 0)) % WORD_RANGE
  {
    if g == f {
      var y := (x + n) % WORD_RANGE;
      assert x + n == (x + n) / WORD_RANGE * WORD_RANGE + y;
      assert (y + 1) % WORD_RANGE == (x + n + 1) % WORD_RANGE;
    }
  }

  /** `BumpStdCounts` for every known file at once. */
  lemma BumpStdEvery(fds: seq<Option<FileId>>, refcounts: map<FileId, Unsigned>)
    requires StdStreamsOpen(fds, refcounts)
    ensures forall f :: f in refcounts ==> BumpStd(fds, refcounts)[f] == (refcounts[f] + StdRefs(fds, f)) % WORD_RANGE
  {
    forall f | f in refcounts
      ensures BumpStd(fds, refcounts)[f] == (refcounts[f] + StdRefs(fds, f)) % WORD_RANGE
    {
      BumpStdCounts(fds, refcounts, f);
    }
  }

  /** When the three standard descriptors refer to three different files,
      each of those counts rises by exactly one (barring 32-bit wrap) and
      no other count changes. */
  lemma BumpStdDistinct(fds: seq<Option<FileId>>, refcounts: map<FileId, Unsigned>)
    requires StdStreamsOpen(fds, refcounts)
    requires fds[0] != fds[1] && fds[1] != fds[2] && fds[0] != fds[2]
    ensures forall fd :: 0 <= fd < 3 ==>
              BumpStd(fds, refcounts)[fds[fd].value] == Inc32(refcounts[fds[fd].value])
    ensures forall f :: f in refcounts && Some(f) != fds[0] && Some(f) != fds[1] && Some(f) != fds[2] ==>
              BumpStd(fds, refcounts)[f] == refcounts[f]
  {
    forall fd | 0 <= fd < 3
      ensures BumpStd(fds, refcounts)[fds[fd].value] == Inc32(refcounts[fds[fd].value])
    {
      BumpStdCounts(fds, refcounts, fds[fd].value);
    }
    forall f | f in refcounts && Some(f) != fds[0] && Some(f) != fds[1] && Some(f) != fds[2]
      ensures BumpStd(fds, refcounts)[f] == refcounts[f]
    {
      BumpStdCounts(fds, refcounts, f);
    }
  }

  // ---------------------------------------------------------------------
  // The routine

  /** Outcomes of the foreign calls: `vfs_open`'s and `load_elf`'s error
      codes (0 on success), whether `as_create` returned an address space,
      the entry point `load_elf` reports, and `as_define_stack`'s error
      code and stack top. */
  datatype Env = Env(openResult: int, asCreateOk: bool, elfResult: int, entrypoint: VAddr,
                     stackResult: int, stackptr: VAddr)

  /** The calls the routine makes, in the order made. */
  datatype Event = VfsOpen | AsCreate | AsActivate | LoadElf | VfsClose | DefineStack | EnterNewProcess

  /** An error code returned to the caller, or the arguments handed to
      `enter_new_process`, which does not return. */
  datatype Outcome =
    | Returned(code: int)
    | EnteredUser(argc: int, argv: VAddr, environ: VAddr, stackptr: VAddr, entry: VAddr)

  /** Everything the routine leaves behind. */
  datatype Run = Run(outcome: Outcome, events: seq<Event>, layout: Option<StackLayout>,
                     refcounts: map<FileId, Unsigned>)

  /** Number of times `e` occurs in `events`. */
  function CountEvent(events: seq<Event>, e: Event): nat {
    if events == [] then 0
    else (if events[0] == e then 1 else 0) + CountEvent(events[1..], e)
  }

  /** Counting distributes over concatenation. */
  lemma {:induction false} CountEventConcat(a: seq<Event>, b: seq<Event>, e: Event)
    ensures CountEvent(a + b, e) == CountEvent(a, e) + CountEvent(b, e)
    decreases |a|
  {
    if a == [] {
      assert a + b == b;
    } else {
      assert (a + b)[1..] == a[1..] + b;
      CountEventConcat(a[1..], b, e);
    }
  }

  /** The padded name length fits a 32-bit `size_t`. */
  predicate NameFits(progname: seq<char>)
    requires Misc.IsCString(progname)
  {
    Misc.Strlen(progname) + 4 < WORD_RANGE
  }

  /** `runprogram(progname)` with the process's descriptor table `fds`
      and the reference counts `refcounts` of the open files. */
  function RunProgram(progname: seq<char>, fds: seq<Option<FileId>>, refcounts: map<FileId, Unsigned>,
                      env: Env): (r: Run)
    requires Misc.IsCString(progname) && NameFits(progname)
    requires |fds| >= 3
    requires env.openResult == 0 && env.asCreateOk && env.elfResult == 0 && env.stackResult == 0 ==>
               StdStreamsOpen(fds, refcounts)
    // error paths, in the order they are checked
    ensures env.openResult != 0 ==> r.outcome == Returned(env.openResult) && r.events == [VfsOpen]
    ensures env.openResult == 0 && !env.asCreateOk ==> r.outcome == Returned(ENOMEM)
    ensures env.openResult == 0 && env.asCreateOk && env.elfResult != 0 ==>
              r.outcome == Returned(env.elfResult)
    ensures env.openResult == 0 && env.asCreateOk && env.elfResult == 0 && env.stackResult != 0 ==>
              r.outcome == Returned(env.stackResult)
    ensures r.outcome.EnteredUser? <==>
              env.openResult == 0 && env.asCreateOk && env.elfResult == 0 && env.stackResult == 0
    // the calls made once the open succeeds, up to and including the close
    ensures env.openResult == 0 && !env.asCreateOk ==> r.events == [VfsOpen, AsCreate, VfsClose]
    ensures env.openResult == 0 && env.asCreateOk ==>
              |r.events| >= 5 && r.events[..5] == [VfsOpen, AsCreate, AsActivate, LoadElf, VfsClose]
    // no address space before a successful open; the vnode closed exactly once after one
    ensures AsCreate in r.events ==> env.openResult == 0
    ensures CountEvent(r.events, VfsClose) == (if env.openResult == 0 then 1 else 0)
    // reference counts change only on the way to user mode
    ensures r.outcome.Returned? ==> r.refcounts == refcounts
    ensures r.outcome.Returned? ==> EnterNewProcess !in r.events && r.layout.None?
    ensures r.outcome.EnteredUser? ==> r.refcounts.Keys == refcounts.Keys
    ensures r.outcome.EnteredUser? ==>
              forall f :: f in refcounts ==> r.refcounts[f] == (refcounts[f] + StdRefs(fds, f)) % WORD_RANGE
    // the user-mode entry
    ensures r.outcome.EnteredUser? ==>
              && r.layout.Some?
              && r.outcome == EnteredUser(1, r.layout.value.argvAddr, 0, r.layout.value.argvAddr, env.entrypoint)
              && r.layout.value.argv0 == r.layout.value.nameAddr && r.layout.value.argv1 == 0
              && Add32(r.layout.value.nameAddr, PaddedNameLength(Misc.Strlen(progname))) == env.stackptr
              && Add32(r.layout.value.argvAddr, 2 * PTR_SIZE) == r.layout.value.nameAddr
  {
    if env.openResult == 0 && env.asCreateOk && env.elfResult == 0 then
      Launch(PaddedNameLength(Misc.Strlen(progname)), fds, refcounts, env)
    else
      EarlyExit(refcounts, env)
  }

  /** The three error returns before the ELF image is loaded: a failed
      `vfs_open`, a failed `as_create` (the vnode is closed, `ENOMEM`) and
      a failed `load_elf` (the vnode is closed, its code returned). No
      count changes and no stack is laid out. */
  function EarlyExit(refcounts: map<FileId, Unsigned>, env: Env): (r: Run)
    requires !(env.openResult == 0 && env.asCreateOk && env.elfResult == 0)
    ensures r.outcome.Returned? && r.refcounts == refcounts && r.layout.None?
    ensures EnterNewProcess !in r.events && DefineStack !in r.events
    ensures env.openResult != 0 ==> r.outcome == Returned(env.openResult) && r.events == [VfsOpen]
    ensures env.openResult == 0 && !env.asCreateOk ==>
              r.outcome == Returned(ENOMEM) && r.events == [VfsOpen, AsCreate, VfsClose]
    ensures env.openResult == 0 && env.asCreateOk ==>
              r.outcome == Returned(env.elfResult) && r.events == [VfsOpen, AsCreate, AsActivate, LoadElf, VfsClose]
    ensures env.openResult == 0 && env.asCreateOk ==>
              |r.events| >= 5 && r.events[..5] == [VfsOpen, AsCreate, AsActivate, LoadElf, VfsClose]
    ensures AsCreate in r.events ==> env.openResult == 0
    ensures CountEvent(r.events, VfsClose) == (if env.openResult == 0 then 1 else 0)
  {
    if env.openResult != 0 then
      Run(Returned(env.openResult), [VfsOpen], None, refcounts)
    else if !env.asCreateOk then
      CountEventConcat([VfsOpen, AsCreate], [VfsClose], VfsClose);
      assert [VfsOpen, AsCreate] + [VfsClose] == [VfsOpen, AsCreate, VfsClose];
      Run(Returned(ENOMEM), [VfsOpen, AsCreate, VfsClose], None, refcounts)
    else
      var loaded := [VfsOpen, AsCreate, AsActivate, LoadElf, VfsClose];
      CountEventConcat(loaded[..4], [VfsClose], VfsClose);
      assert loaded[..4] + [VfsClose] == loaded;
      Run(Returned(env.elfResult), loaded, None, refcounts)
  }

  /** The calls up to the stack definition close the vnode once, and so
      does that list followed by the entry to user mode. */
  lemma LoadedClosesOnce()
    ensures CountEvent([VfsOpen, AsCreate, AsActivate, LoadElf, VfsClose, DefineStack], VfsClose) == 1
    ensures CountEvent([VfsOpen, AsCreate, AsActivate, LoadElf, VfsClose, DefineStack] + [EnterNewProcess], VfsClose) == 1
  {
    var before := [VfsOpen, AsCreate, AsActivate, LoadElf];
    var after := [VfsClose, DefineStack];
    CountEventConcat(before, after, VfsClose);
    assert before + after == [VfsOpen, AsCreate, AsActivate, LoadElf, VfsClose, DefineStack];
    CountEventConcat(before + after, [EnterNewProcess], VfsClose);
  }

  /** The part after a successful `load_elf`: close the vnode, define the
      stack, lay out name and `argv`, bump the standard streams' counts and
      enter user mode. */
  function Launch(padded: Unsigned, fds: seq<Option<FileId>>, refcounts: map<FileId, Unsigned>, env: Env): (r: Run)
    requires |fds| >= 3
    requires env.stackResult == 0 ==> StdStreamsOpen(fds, refcounts)
    ensures |r.events| >= 6 && r.events[..6] == [VfsOpen, AsCreate, AsActivate, LoadElf, VfsClose, DefineStack]
    ensures r.events[..5] == [VfsOpen, AsCreate, AsActivate, LoadElf, VfsClose]
    ensures CountEvent(r.events, VfsClose) == 1
    ensures r.outcome.EnteredUser? <==> env.stackResult == 0
    ensures env.stackResult != 0 ==> r.outcome == Returned(env.stackResult) && r.refcounts == refcounts
    ensures env.stackResult != 0 ==> EnterNewProcess !in r.events && r.layout.None?
    ensures r.outcome.EnteredUser? ==> r.refcounts.Keys == refcounts.Keys
    ensures r.outcome.EnteredUser? ==>
              forall f :: f in refcounts ==> r.refcounts[f] == (refcounts[f] + StdRefs(fds, f)) % WORD_RANGE
    ensures r.outcome.EnteredUser? ==>
              && r.layout.Some?
              && r.outcome == EnteredUser(1, r.layout.value.argvAddr, 0, r.layout.value.argvAddr, env.entrypoint)
              && r.layout.value.argv0 == r.layout.value.nameAddr && r.layout.value.argv1 == 0
              && Add32(r.layout.value.nameAddr, padded) == env.stackptr
              && Add32(r.layout.value.argvAddr, 2 * PTR_SIZE) == r.layout.value.nameAddr
  {
    var loaded := [VfsOpen, AsCreate, AsActivate, LoadElf, VfsClose, DefineStack];
    LoadedClosesOnce();
    if env.stackResult != 0 then
      Run(Returned(env.stackResult), loaded, None, refcounts)
    else
      var layout := LayOutStack(env.stackptr, padded);
      var bumped := BumpStd(fds, refcounts);
      assert (loaded + [EnterNewProcess])[..6] == loaded;
      assert (loaded + [EnterNewProcess])[..5] == loaded[..5];
      BumpStdEvery(fds, refcounts);
      Run(EnteredUser(1, layout.argvAddr, 0, layout.argvAddr, env.entrypoint),
          loaded + [EnterNewProcess], Some(layout), bumped)
  }

  /** In the call list `ev`, the vnode is closed after the load attempt
      (`created`: the address space was made) or after the failed
      `as_create` with no load attempted, and before the stack is defined
      or user mode is entered. */
  predicate CloseOrdered(ev: seq<Event>, created: bool) {
    exists i :: 0 <= i < |ev| && ev[i] == VfsClose &&
      (forall j :: 0 <= j < i ==> ev[j] != DefineStack && ev[j] != EnterNewProcess) &&
      (created ==> LoadElf in ev[..i]) &&
      (!created ==> AsCreate in ev[..i] && LoadElf !in ev)
  }

  /** The two call lists a successful open can begin with close in order. */
  lemma CloseOrderedPrefix(ev: seq<Event>, created: bool)
    requires !created ==> ev == [VfsOpen, AsCreate, VfsClose]
    requires created ==> |ev| >= 5 && ev[..5] == [VfsOpen, AsCreate, AsActivate, LoadElf, VfsClose]
    ensures CloseOrdered(ev, created)
  {
    var i := if created then 4 else 2;
    if !created {
      assert ev[..i] == [VfsOpen, AsCreate];
    } else {
      assert ev[..i] == ev[..5][..4];
      assert ev[..i][3] == LoadElf;
    }
    assert ev[i] == VfsClose;
    assert forall j :: 0 <= j < i ==> ev[j] == ev[..i][j];
    assert created ==> LoadElf in ev[..i];
    assert !created ==> AsCreate in ev[..i] && LoadElf !in ev;
  }

  /** The vnode is closed once the ELF load has been attempted, or after
      the failed `as_create` (with no load attempted), and before the stack
      is defined. */
  lemma CloseFollowsLoad(progname: seq<char>, fds: seq<Option<FileId>>, refcounts: map<FileId, Unsigned>,
                         env: Env)
    requires Misc.IsCString(progname) && NameFits(progname)
    requires |fds| >= 3
    requires env.openResult == 0 && env.asCreateOk && env.elfResult == 0 && env.stackResult == 0 ==>
               StdStreamsOpen(fds, refcounts)
    requires env.openResult == 0
    ensures CloseOrdered(RunProgram(progname, fds, refcounts, env).events, env.asCreateOk)
  {
    CloseOrderedPrefix(RunProgram(progname, fds, refcounts, env).events, env.asCreateOk);
  }
}

=== FILE: synch.dfy ===
/**
 Semaphores and locks as atomic state transitions.

 Each operation of the kernel runs as one step under the primitive's
 spinlock; here it is a function from the old state to the new one.
 Sleeping on the wait channel is the `Blocked` outcome of a step: the
 thread stays asleep until another thread changes the state, and then it
 retries the same step. Thread identities are opaque values.
 */
module Synch {
  import opened Types

  /** The identity of a kernel thread (`struct thread *`), compared only
      for equality. */
  type ThreadId = nat

  // ---------------------------------------------------------------------
  // Semaphore

  /** `struct semaphore`: a name and an unsigned count (the wait channel
      and spinlock are the execution machinery around a step). */
  datatype Semaphore = Semaphore(name: string, count: Unsigned)

  /** `sem_create(name, initial_count)`; `allocOk` stands for the
      outcome of the three allocations (structure, name copy, wait
      channel), any of which makes it return NULL. */
  function SemCreate(name: string, initialCount: Unsigned, allocOk: bool): (r: Option<Semaphore>)
    ensures r.Some? <==> allocOk
    ensures r.Some? ==> r.value.count == initialCount && r.value.name == name
  {
    if allocOk then Some(Semaphore(name, initialCount)) else None
  }

  /** `P(sem)`: sleeps while the count is 0, then takes one unit. */
  function P(s: Semaphore): (r: Step<Semaphore>)
    ensures r.Done? <==> s.count > 0
    ensures r.Done? ==> r.next.count == s.count - 1 && r.next.name == s.name
  {
    if s.count == 0 then Blocked else Done(s.(count := s.count - 1))
  }

  /** `V(sem)`: adds one unit. The 32-bit increment is followed by an
      assertion that the count is positive, so a wrap to 0 is a kernel
      panic (`None`). */
  function V(s: Semaphore): (r: Option<Semaphore>)
    ensures r.Some? <==> s.count < UINT_MAX
    ensures r.Some? ==> r.value.count == s.count + 1 && r.value.name == s.name
  {
    var c := Inc32(s.count);
    if c > 0 then Some(s.(count := c)) else None
  }

  /** An operation a thread performs on a semaphore. */
  datatype SemOp = DownP | UpV

  /** Number of occurrences of `op` in `ops`. */
  function CountSemOp(ops: seq<SemOp>, op: SemOp): nat {
    if ops == [] then 0
    else (if ops[0] == op then 1 else 0) + CountSemOp(ops[1..], op)
  }

  /** Runs `ops` in order; `None` when some `P` would sleep or some `V`
      would panic before the sequence is through. */
  function RunSem(s: Semaphore, ops: seq<SemOp>): Option<Semaphore>
    decreases |ops|
  {
    if ops == [] then Some(s)
    else if ops[0] == DownP then
      match P(s)
      case Blocked => None
      case Done(s') => RunSem(s', ops[1..])
    else
      match V(s)
      case None => None
      case Some(s') => RunSem(s', ops[1..])
  }

  /** Conservation: after any sequence that completes, the count is the
      initial count plus the `V`s minus the `P`s, so completed `P`s never
      outnumber the initial count plus the `V`s. */
  lemma {:induction false} RunSemBalance(s: Semaphore, ops: seq<SemOp>)
    requires RunSem(s, ops).Some?
    ensures RunSem(s, ops).value.count == s.count + CountSemOp(ops, UpV) - CountSemOp(ops, DownP)
    ensures CountSemOp(ops, DownP) <= s.count + CountSemOp(ops, UpV)
    decreases |ops|
  {
    if ops != [] {
      if ops[0] == DownP {
        RunSemBalance(P(s).next, ops[1..]);
      } else {
        RunSemBalance(V(s).value, ops[1..]);
      }
    }
  }

  /** A run that completes also completes on every prefix. */
  lemma {:induction false} RunSemPrefix(s: Semaphore, ops: seq<SemOp>, n: nat)
    requires n <= |ops| && RunSem(s, ops).Some?
    ensures RunSem(s, ops[..n]).Some?
    decreases n
  {
    if n > 0 {
      assert ops[..n][0] == ops[0];
      assert ops[..n][1..] == ops[1..][..n - 1];
      if ops[0] == DownP {
        RunSemPrefix(P(s).next, ops[1..], n - 1);
      } else {
        RunSemPrefix(V(s).value, ops[1..], n - 1);
      }
    }
  }

  /** A `P` never gets past a zero count without an earlier `V`: at every
      point of a completed run the `P`s so far are covered by the initial
      count and the `V`s so far. */
  lemma NoDownWithoutUp(s: Semaphore, ops: seq<SemOp>, n: nat)
    requires n <= |ops| && RunSem(s, ops).Some?
    ensures CountSemOp(ops[..n], DownP) <= s.count + CountSemOp(ops[..n], UpV)
  {
    RunSemPrefix(s, ops, n);
    RunSemBalance(s, ops[..n]);
  }

  // ---------------------------------------------------------------------
  // Lock

  /** `struct lock`: the held flag `lk_value` and the owner `lk_owner`
      (NULL is `None`). */
  datatype Lock = Lock(name: string, held: bool, owner: Option<ThreadId>)

  /** `lock_create(name)`: unheld, no owner; NULL when an allocation fails. */
  function LockCreate(name: string, allocOk: bool): (r: Option<Lock>)
    ensures r.Some? <==> allocOk
    ensures r.Some? ==> !r.value.held && r.value.owner.None? && r.value.name == name
  {
    if allocOk then Some(Lock(name, false, None)) else None
  }

  /** `lock_init(lock, t)`: marks the lock held by `t` whatever its state
      was, without waiting. */
  function LockInit(l: Lock, t: ThreadId): (r: Lock)
    ensures r.held && r.owner == Some(t) && r.name == l.name
  {
    l.(held := true, owner := Some(t))
  }

  /** `lock_acquire(lock)` by thread `t`: sleeps while the lock is held,
      then takes it. */
  function LockAcquire(l: Lock, t: ThreadId): (r: Step<Lock>)
    ensures r.Done? <==> !l.held
    ensures r.Done? ==> r.next.held && r.next.owner == Some(t) && r.next.name == l.name
  {
    if l.held then Blocked else Done(l.(held := true, owner := Some(t)))
  }

  /** `lock_tryacquire(lock)` by `t`: the new lock and the return value,
      0 when the lock was free and is now taken, 1 when it was held. */
  function LockTryAcquire(l: Lock, t: ThreadId): (r: (Lock, int))
    ensures r.1 == 0 <==> !l.held
    ensures r.1 == 1 <==> l.held
    ensures r.1 == 0 ==> r.0.held && r.0.owner == Some(t) && r.0.name == l.name
    ensures r.1 == 1 ==> r.0 == l
  {
    if !l.held then (l.(held := true, owner := Some(t)), 0) else (l, 1)
  }

  /** `lock_release(lock)` by `t`: clears the held flag only when `t` is
      the recorded owner; the owner itself is never cleared. */
  function LockRelease(l: Lock, t: ThreadId): (r: Lock)
    ensures r.owner == l.owner && r.name == l.name
    ensures r.held <==> l.held && l.owner != Some(t)
  {
    if l.owner == Some(t) then l.(held := false) else l
  }

  /** `lock_do_i_hold(lock)` asked by `t`: compares the owner only. */
  function LockDoIHold(l: Lock, t: ThreadId): bool {
    l.owner == Some(t)
  }

  /** `lock_do_i_hold` ignores the held flag: its answer is the same for
      a held and a free lock, and right after an init, an acquire or a
      successful tryacquire by `t` it is true exactly for `t`.
      `ReleasesKeepOwner` and `HeldOwnerStays` carry the answer over the
      later operations that do not take the lock. */
  lemma DoIHoldIgnoresHeld(l: Lock, t: ThreadId, u: ThreadId)
    ensures LockDoIHold(l.(held := true), u) == LockDoIHold(l.(held := false), u)
    ensures LockDoIHold(LockInit(l, t), u) <==> u == t
    ensures !l.held ==> (LockDoIHold(LockAcquire(l, t).next, u) <==> u == t)
    ensures !l.held ==> (LockDoIHold(LockTryAcquire(l, t).0, u) <==> u == t)
  {
  }

  /** Mutual exclusion: while the lock is held nobody, not even the owner,
      can acquire it, and a release by anyone but the owner leaves it held
      by the same owner. */
  lemma HeldLockExcludes(l: Lock, t: ThreadId, u: ThreadId)
    requires l.held && l.owner == Some(t) && u != t
    ensures LockAcquire(l, u).Blocked? && LockAcquire(l, t).Blocked?
    ensures LockTryAcquire(l, u) == (l, 1)
    ensures LockRelease(l, u) == l
    ensures LockDoIHold(l, t) && !LockDoIHold(l, u)
  {
  }

  /** The owner's release lets the next thread in. */
  lemma ReleaseThenAcquire(l: Lock, t: ThreadId, u: ThreadId)
    requires l.held && l.owner == Some(t)
    ensures LockAcquire(LockRelease(l, t), u) == Done(l.(owner := Some(u)))
  {
  }

  /** The owner is never cleared: after `t` acquires and releases, the
      lock is free yet `lock_do_i_hold` still answers true for `t`. */
  lemma ReleasedOwnerStillHolds(l: Lock, t: ThreadId)
    requires !l.held
    ensures var after := LockRelease(LockAcquire(l, t).next, t);
            !after.held && LockDoIHold(after, t)
  {
  }

  /** An operation a thread performs on a lock. */
  datatype LockOp = Init(t: ThreadId) | Acquire(t: ThreadId) | TryAcquire(t: ThreadId) | Release(t: ThreadId)

  /** One operation, with a blocked acquire leaving the state as it is
      (the thread is asleep and has not returned). `fixedRelease` selects
      the corrected release that also clears the owner. */
  function ApplyLockOp(l: Lock, op: LockOp, fixedRelease: bool): Lock {
    match op
    case Init(t) => LockInit(l, t)
    case Acquire(t) => (match LockAcquire(l, t) case Blocked => l case Done(l') => l')
    case TryAcquire(t) => LockTryAcquire(l, t).0
    case Release(t) => if fixedRelease then LockReleaseFixed(l, t) else LockRelease(l, t)
  }

  /** Runs `ops` in order from `l`. */
  function RunLock(l: Lock, ops: seq<LockOp>, fixedRelease: bool): Lock
    decreases |ops|
  {
    if ops == [] then l else RunLock(ApplyLockOp(l, ops[0], fixedRelease), ops[1..], fixedRelease)
  }

  /** A held lock always records its owner. */
  predicate HeldHasOwner(l: Lock) {
    l.held ==> l.owner.Some?
  }

  /** Every operation sequence from a created lock keeps the owner
      recorded while the lock is held, so `lock_do_i_hold` on a held lock
      is true for exactly one thread. */
  lemma {:induction false} RunLockKeepsOwner(l: Lock, ops: seq<LockOp>)
    requires HeldHasOwner(l)
    ensures HeldHasOwner(RunLock(l, ops, false))
    ensures RunLock(l, ops, false).held ==>
              exists t :: LockDoIHold(RunLock(l, ops, false), t)
    decreases |ops|
  {
    if ops != [] {
      RunLockKeepsOwner(ApplyLockOp(l, ops[0], false), ops[1..]);
    }
    var r := RunLock(l, ops, false);
    if r.held {
      assert LockDoIHold(r, r.owner.value);
    }
  }

  /** Releases never change the recorded owner, whoever makes them, so
      `lock_do_i_hold` keeps its answer across any run of releases. */
  lemma {:induction false} ReleasesKeepOwner(l: Lock, ops: seq<LockOp>)
    requires forall k :: 0 <= k < |ops| ==> ops[k].Release?
    ensures RunLock(l, ops, false).owner == l.owner
    decreases |ops|
  {
    if ops != [] {
      assert forall k :: 0 <= k < |ops[1..]| ==> ops[1..][k] == ops[k + 1];
      ReleasesKeepOwner(ApplyLockOp(l, ops[0], false), ops[1..]);
    }
  }

  /** While the lock is held, every operation except an init and the
      owner's own release (blocked acquires, failed tryacquires, other
      threads' releases) leaves it held by the same owner. */
  lemma {:induction false} HeldOwnerStays(l: Lock, ops: seq<LockOp>)
    requires l.held && l.owner.Some?
    requires forall k :: 0 <= k < |ops| ==> !ops[k].Init? && ops[k] != Release(l.owner.value)
    ensures RunLock(l, ops, false) == l
    decreases |ops|
  {
    if ops != [] {
      assert ApplyLockOp(l, ops[0], false) == l;
      assert forall k :: 0 <= k < |ops[1..]| ==> ops[1..][k] == ops[k + 1];
      HeldOwnerStays(l, ops[1..]);
    }
  }

  // ---------------------------------------------------------------------
  // The evidently intended release: the owner is cleared as well

  /** `lock_release` that clears `lk_owner` together with `lk_value`. */
  function LockReleaseFixed(l: Lock, t: ThreadId): (r: Lock)
    ensures l.owner == Some(t) ==> !r.held && r.owner.None?
    ensures l.owner != Some(t) ==> r == l
    ensures r.name == l.name
  {
    if l.owner == Some(t) then l.(held := false, owner := None) else l
  }

  /** The lock is held exactly when an owner is recorded. */
  predicate OwnedIffHeld(l: Lock) {
    l.held <==> l.owner.Some?
  }

  /** With the corrected release, from any created lock and over any
      operation sequence, `lock_do_i_hold` is true only for the thread
      that currently holds the lock. */
  lemma {:induction false} RunLockFixedOwnership(l: Lock, ops: seq<LockOp>, t: ThreadId)
    requires OwnedIffHeld(l)
    ensures OwnedIffHeld(RunLock(l, ops, true))
    ensures LockDoIHold(RunLock(l, ops, true), t) ==> RunLock(l, ops, true).held
    decreases |ops|
  {
    if ops != [] {
      RunLockFixedOwnership(ApplyLockOp(l, ops[0], true), ops[1..], t);
    }
  }

  /** The same acquire-then-release that leaves the original answering
      true leaves the corrected one answering false. */
  lemma ReleasedOwnerLetsGoFixed(l: Lock, t: ThreadId)
    requires !l.held
    ensures var after := LockReleaseFixed(LockAcquire(l, t).next, t);
            !after.held && !LockDoIHold(after, t)
  {
  }
}

=== FILE: types.dfy ===
/**
 Shared vocabulary for the kernel model: optional values (a C pointer that
 may be NULL), the outcome of a step that may block, 32-bit unsigned
 arithmetic and the kernel error numbers the core returns.
 */
module Types {

  /** A value that may be absent: a NULL pointer, a failed allocation, a panic. */
  datatype Option<+T> = None | Some(value: T)

  /** One atomic step of a blocking primitive: either the calling thread
      would go to sleep on the wait channel, or the step completes with the
      new state. */
  datatype Step<+S> = Blocked | Done(next: S)

  /** 2^32: the number of values of a 32-bit `unsigned`, `size_t` or `vaddr_t`. */
  const WORD_RANGE: int := 0x1_0000_0000

  /** The largest 32-bit unsigned value. */
  const UINT_MAX: int := WORD_RANGE - 1

  /** A C `unsigned int` on the 32-bit target. */
  type Unsigned = x: int | 0 <= x < WORD_RANGE

  /** `x + 1` on a 32-bit unsigned, wrapping to 0 past UINT_MAX. */
  function Inc32(x: Unsigned): (r: Unsigned)
    ensures x < UINT_MAX ==> r == x + 1
    ensures x == UINT_MAX ==> r == 0
  {
    (x + 1) % WORD_RANGE
  }

  /** `a - b` on 32-bit unsigned values, wrapping below 0. */
  function Sub32(a: Unsigned, b: Unsigned): (r: Unsigned)
    ensures b <= a ==> r == a - b
    ensures a < b ==> r == a - b + WORD_RANGE
  {
    if b <= a then a - b else a - b + WORD_RANGE
  }

  /** `a + b` on 32-bit unsigned values, wrapping past UINT_MAX. */
  function Add32(a: Unsigned, b: Unsigned): (r: Unsigned)
    ensures a + b < WORD_RANGE ==> r == a + b
    ensures a + b >= WORD_RANGE ==> r == a + b - WORD_RANGE
  {
    if a + b < WORD_RANGE then a + b else a + b - WORD_RANGE
  }

  /** Wrapping subtraction is undone by wrapping addition. */
  lemma AddUndoesSub(a: Unsigned, b: Unsigned)
    ensures Add32(Sub32(a, b), b) == a
  {
  }

  /** Out of memory (OS/161 kern/errno.h; that header is not part of this model). */
  const ENOMEM: int := 3
}
